=== FILE: README.md ===
# Weekly check-in grid — a Dafny model of its logic

The application shows a 5×5 grid: five time slots (two morning, two afternoon, dinner) by
five weekdays (Monday to Friday). Clicking a tile cycles it through four states: empty, `A`, `L`
and `B`. The grid is saved to an object store under a key built from a route name and the week's
date. Assigned tiles can be sent to a to-do service as tasks. Events can be sent to a calendar
service.

This project models the pure logic inside that UI and I/O code:

- `Tile` (tile.dfy) — the click cycle `(prev + 1) % n` with JavaScript's truncating `%`; the
  reset on a new `initialState`; when rendering is defined.
- `Grid` (grid.dfy) — the grid state as a list of `(row, col, stateIndex)` records; first-match
  update-or-append and lookup; the default 5×5 row-major initialisation; the five column
  headings.
- `Dates` (dates.dfy) — days as integers, with weekday `day % 7` (0 = Sunday, as `getDay`).
  Covers the Monday of the current week, whole-week offsets, and `/` → `-` date formatting.
- `Storage` (storage.dfy) and `Config` (config.dfy) — the directory-plus-route key, the object
  key `<storage key>/<formatted week>`, and save/load against a store modelled as a map.
- `Batch` (batch.dfy) — the success/failure tally loop the two API clients share.
- `Todoist` (todoist.dfy) — the `createTask` guard and the `createTasks` batch.
- `Calendar` (calendar.dfy) — the authentication flags as an explicit value, the
  `authorizeCalendar` and `createEvent` gates, and the `createEvents` batch.
- `App` (app.dfy) — task derivation in the sync handler, the sync handler itself, and reading
  route names back from stored keys.
- `Wrappers` (wrappers.dfy) — `Option` and `Result`.

Every network or library call becomes an input. `respond(i)` is how the request for the item
at position `i` would end. A task the client refuses makes no request, so its `respond(i)` is
never consulted. A store operation takes a boolean for "succeeded". The client initialisation takes one
of three ending modes. Clocks become a day number `today`. The locale date string and the ISO
date rendering (`isoDate: int -> string`) are inputs.

## Model

| member | source | states |
|---|---|---|
| Tile.JsRem | src/components/Tile.tsx:31 | JavaScript `%`: the result has the dividend's sign and magnitude below `n`, differs from the dividend by a multiple of `n`, is the dividend itself below `n`, and is 0 at `n` |
| Tile.Next | src/components/Tile.tsx:31 | from a non-negative index the next index lies in `[0, n)`; an in-range index moves to the following one, and the last index wraps to 0 |
| Tile.Click | src/components/Tile.tsx:30-32 | a click keeps the state list, keeps the index in range, steps it by one and wraps from the last state to the first |
| Tile.ClicksStayInRange | src/components/Tile.tsx:31 | from an in-range state, any number of clicks leaves the index in range |
| Tile.ClicksWithinRound | src/components/Tile.tsx:31 | within at most `n` clicks the index climbs by one per click and wraps past the end at most once |
| Tile.ClicksCycle | src/components/Tile.tsx:31 | `n` clicks return to the starting state, so the click sequence is periodic with period `n` |
| Tile.ClicksVisitEachStateOnce | src/components/Tile.tsx:31 | starting from 0, the first `n` states shown are exactly `0, 1, …, n-1`, each index once |
| Tile.AppStatesCycle | src/App.tsx:14-19 | with the application's four states the order is 0, 1, 2, 3, 0 |
| Tile.Mount | src/components/Tile.tsx:15-16 | the tile starts at the `initialState` prop, or at 0 when the prop is absent |
| Tile.InitialStateChanged | src/components/Tile.tsx:19-21 | a new `initialState` prop sets the current index to exactly that value and keeps the state list |
| Tile.ResetOverridesClicks | src/components/Tile.tsx:19-37 | a new in-range `initialState` discards any earlier clicks; the tile then renders that state, and `n` clicks bring it back to it |
| Tile.Render | src/components/Tile.tsx:36-37 | rendering is defined exactly when the current index is inside the state list, and then shows the state at the current index |
| Tile.ClickedTileRenders | src/components/Tile.tsx:15-37 | with any non-empty state list, the default tile renders, and it still renders after any number of clicks |
| Dates.DaysFromMonday | src/utils/dates.ts:13 | the distance lies in `[0, 6]` and stepping back by it reaches a Monday; Monday gives 0 and Sunday gives 6 |
| Dates.CurrentMonday | src/utils/dates.ts:6-15 | the result is a Monday, at most six days before `today` |
| Dates.CurrentMondayUnique | src/utils/dates.ts:13-15 | the current Monday is the only Monday in the seven days that end at `today` |
| Dates.MondayWithOffset | src/utils/dates.ts:13-18 | the result is a Monday, exactly `7·k` days after the current week's Monday |
| Dates.MondayWithOffsetIsThatWeeksMonday | src/utils/dates.ts:18 | the offset Monday is the Monday of the week holding the day `7·k` days from today |
| Dates.FormatDate | src/utils/dates.ts:1-3 | the result is as long as the locale string and has no `/`; each `/` becomes `-` and every other character is kept |
| Dates.FormatDateIdempotent | src/utils/dates.ts:2 | formatting an already formatted date changes nothing |
| Grid.FindIndex | src/components/Grid.tsx:78-80 | returns the first position whose record has the key, or -1 exactly when no record has it |
| Grid.UpdateTile | src/components/Grid.tsx:75-90 | with a matching record, only the first match's state changes and the length and keys stay; without one, one record `(row, col, s)` is appended after an unchanged prefix |
| Grid.GetTileState | src/components/Grid.tsx:93-96 | returns the first matching record's state, or 0 when no record has the key |
| Grid.GetAfterUpdate | src/components/Grid.tsx:78-96 | after updating `(r, c)` to `s`, the lookup of `(r, c)` gives `s`, even when the list has duplicate keys |
| Grid.UpdateKeepsOtherTiles | src/components/Grid.tsx:78-86 | an update leaves the lookup of every other key unchanged |
| Grid.UpdateKeepsKeysUnique | src/components/Grid.tsx:78-86 | an update keeps "at most one record per key" |
| Grid.DefaultGridState | src/components/Grid.tsx:57-62 | the nested loop yields `rows·cols` records; record `i` holds the cell with `row·cols + col = i`, in state 0 |
| Grid.RowMajorKeysUnique | src/components/Grid.tsx:57-62 | the default grid holds no key twice |
| Grid.RowMajorCoversEveryCell | src/components/Grid.tsx:57-62 | every cell `(r, c)` of the default grid is present, at position `r·cols + c`, in state 0 |
| Grid.InitialGridState | src/components/Grid.tsx:52-65 | a loaded grid is used as loaded (even when empty); otherwise the grid has 25 row-major records, one per cell, each reading 0 |
| Grid.WeekHeadings | src/components/Grid.tsx:16-39 | there are exactly five headings, and heading `i` stands for the current Monday plus `i` days |
| Grid.HeadingNamesMatchWeekdays | src/components/Grid.tsx:28-36 | heading `i` falls on weekday `i + 1`, so "Mon" … "Fri" name the true weekdays of their dates |
| Storage.LastIndexOf | src/utils/digitalOceanStorage.ts:58 | the result is -1 or a position holding the character, and no later position holds it |
| Storage.Directory | src/utils/digitalOceanStorage.ts:58-59 | the prefix is empty or ends in `/`, and the rest of the key has no `/` |
| Storage.DirectoryUnique | src/utils/digitalOceanStorage.ts:57-59 | a key has exactly one such directory prefix |
| Storage.GetKeyForRoute | src/utils/digitalOceanStorage.ts:56-63 | the key ends with the route, and what precedes the route is the base key's directory part |
| Storage.KeyPrefixIndependentOfRoute | src/utils/digitalOceanStorage.ts:62 | the part in front of the route depends only on the base key |
| Storage.FlatBaseKeyGivesRoute | src/utils/digitalOceanStorage.ts:59 | a base key without `/` yields exactly the route |
| Storage.RekeyReplacesRoute | src/utils/digitalOceanStorage.ts:56-63 | for a route without `/`, re-keying a derived key with a second route equals keying the base with that route; with the same route it is idempotent |
| Storage.DefaultKeyUnderListingPrefix | src/config.ts:18-19 | with base `checkin-app/default-state` the key is `checkin-app/` followed by the route, so it starts with the listing prefix |
| Storage.StorageKey | src/utils/digitalOceanStorage.ts:77 | an absent or empty route name keeps the key; a non-empty one yields that route's key from `getKeyForRoute`, which ends with the route |
| Storage.ObjectKey | src/utils/digitalOceanStorage.ts:81 | the storage key, a `/`, then the formatted week; that `/` is the last one in the key |
| Storage.SaveState | src/utils/digitalOceanStorage.ts:68-92 | reports `true` exactly when the upload succeeds; a failure leaves the store unchanged; a success adds only the object key and stores the grid under it |
| Storage.LoadState | src/utils/digitalOceanStorage.ts:97-124 | an error yields nothing; otherwise the result is present exactly when the object key is in the store, and is then the grid stored under that key |
| Storage.SaveThenLoad | src/utils/digitalOceanStorage.ts:77-109 | saving and then loading with the same key, week and route gives back the saved grid, so both build the same object key |
| Storage.EmptyRouteIsNoRoute | src/utils/digitalOceanStorage.ts:105 | an empty route name and an absent one address the same object |
| Storage.LastSegment | src/App.tsx:84-87 | the last segment has no `/`, ends the key, and follows a `/` whenever it is not the whole key |
| Storage.LastSegmentOfRouteKey | src/App.tsx:84-87 | for a route without `/`, the last segment of its route key is the route |
| Batch.OutcomeOf | src/utils/todoistApi.ts:66-72 | a boolean client call never throws, and it succeeds exactly when a request was sent and was answered ok |
| Batch.CountsCoverBatch | src/utils/todoistApi.ts:65-77 | successes plus failures equal the batch size |
| Batch.NoFailureMeansAllSucceeded | src/utils/todoistApi.ts:79-83 | zero failures holds exactly when every item succeeded |
| Batch.ThrowCountsOnceAndContinues | src/utils/todoistApi.ts:73-76 | a thrown call adds exactly one failure, and the items after it are still counted |
| Batch.RunBatch | src/utils/todoistApi.ts:58-84 | the loop's totals equal the success and failure counts, which sum to the batch size; `success` holds exactly when nothing failed |
| Todoist.CreateTask | src/utils/todoistApi.ts:29-53 | a task without a due date or project id is refused with no request; otherwise it succeeds exactly on an ok response |
| Todoist.CountSendable | src/utils/todoistApi.ts:33-35 | the count is 0 exactly when no task passes the guard |
| Todoist.SucceededOnlyWhenSent | src/utils/todoistApi.ts:33-35 | the number of successes never exceeds the number of tasks that pass the guard |
| Todoist.SucceededAreOk | src/utils/todoistApi.ts:65-72 | the successes the tally loop counts are exactly the tasks that pass the guard and are answered ok |
| Todoist.CreateTasks | src/utils/todoistApi.ts:58-84 | the success total is the number of sendable tasks answered ok and every other task is a failure, so totals sum to the task count; `success` holds exactly when every task is sendable and answered ok; the number of calls that get past the guard and make a request equals the number of sendable tasks |
| Calendar.IsAuthorized | src/utils/googleCalendarApi.ts:79-81 | authorisation implies both an initialised client and a signed-in user |
| Calendar.InitClient | src/utils/googleCalendarApi.ts:28-54 | resolves `true` and sets `gapiInitialized` only on the full success path; on error both flags stay as they were; the sign-in listener is registered unless the library init itself throws |
| Calendar.SignInChanged | src/utils/googleCalendarApi.ts:40-42 | once registered, the listener sets `isSignedIn` and never touches `gapiInitialized` |
| Calendar.InitializedOnlyBySuccess | src/utils/googleCalendarApi.ts:44-51 | from the initial flags, `gapiInitialized` holds after a run of events exactly when one of them was a successful init |
| Calendar.AuthorizeCalendar | src/utils/googleCalendarApi.ts:59-74 | without an initialised client the result is `false` and no sign-in happens; sign-in is asked for only when not signed in |
| Calendar.CreateEvent | src/utils/googleCalendarApi.ts:86-123 | refused without an insert exactly when not authorised; succeeds exactly on a status-200 insert |
| Calendar.SucceededAreInserted | src/utils/googleCalendarApi.ts:137-146 | the successes the tally loop counts are exactly the events whose insert is attempted and answered with status 200 |
| Calendar.CreateEvents | src/utils/googleCalendarApi.ts:128-154 | the success total is the number of attempted inserts answered with status 200 and every other event is a failure, so totals sum to the event count; `success` holds exactly when nothing failed; the number of calls that get past the authorisation check is every event when authorised and none otherwise; when not authorised every event fails |
| Calendar.AccessNeedsSuccessfulInit | src/utils/googleCalendarApi.ts:44-93 | from the initial flags, an authorisation that succeeds or an insert that is attempted implies that some initialisation succeeded |
| App.RowDescription | src/App.tsx:151-162 | a row index inside the five headings gives that heading; any other gives the text "undefined" |
| App.Priority | src/App.tsx:174 | the priority is in `{2, 3, 4}`: 4 exactly for `A`, 2 exactly for `B` |
| App.AssignedTiles | src/App.tsx:154-156 | the kept tiles are all non-empty and no more than the grid holds; none are kept exactly when the grid has no assigned tile; a one-tile grid is kept whole when assigned and dropped otherwise |
| App.AssignedTilesCounts | src/App.tsx:154-156 | each assigned tile is kept exactly as often as it occurs in the grid, and no other tile is kept |
| App.AssignedTilesAppend | src/App.tsx:154-156 | the filter distributes over concatenation, so with the one-tile case the kept tiles keep their grid order |
| App.AssignedTilesMembers | src/App.tsx:154-156 | a tile is kept exactly when it is in the grid and non-empty |
| App.TaskForTile | src/App.tsx:158-175 | the task is due on Monday plus the column index, its description names that same date, its content is `<label> - <row>`, and its priority is the one its state's label earns |
| App.DeriveTasksFor | src/App.tsx:153-176 | success holds exactly when every assigned tile has a known state; otherwise the error names the first unknown one; on success there is exactly one task per assigned tile, in grid order |
| App.DeriveTasks | src/App.tsx:170-175 | the handler's own derivation never sets a project id |
| App.EmptyGridNoTasks | src/App.tsx:154-156 | a grid with no assigned tile yields an empty task list |
| App.DerivedTasksNeverSendable | src/App.tsx:170-175 | every task the handler derives fails the client's guard |
| App.ProjectTasksSendable | src/App.tsx:170-175 | with a non-empty project id attached, every derived task passes the client's guard |
| App.SyncToTodoist | src/App.tsx:135-195 | no token or no grid: nothing happens; an unknown state gives the error status; "nothing to sync" is reported exactly for a token, a grid and no assigned tile; with assigned tiles all of known state, the status is 0 succeeded and every task failed; no request is ever sent |
| App.SyncToTodoistWithProject | src/App.tsx:135-195 | "nothing to sync" exactly for no assigned tile; the error status exactly when an assigned tile has an unknown state; a partial result counts as succeeded the derived tasks that pass the guard and are answered ok, and the rest as failed; with assigned tiles of known state the sync reports full or partial success over all of them; with a project id there is one request per assigned tile, every ok response gives full success, full success means every request was answered ok, and a partial result means some request was not ok |
| App.RouteNames | src/App.tsx:84-87 | one name per listed key, which is that key's last `/`-segment and so contains no `/` |
| App.RouteNameOfObjectKeyIsDate | src/App.tsx:84-87 | applied to a saved grid's object key, the extraction returns the formatted week date |
| App.RouteNameCounterexample | src/App.tsx:84-87 | the route `kids` saved for week `6/3/2024` is listed under a different name |
| App.RouteOfObjectKey | src/App.tsx:84-87 | the extracted route never contains `/` |
| App.RouteOfObjectKeyRoundTrip | src/utils/digitalOceanStorage.ts:81 | taking the segment before the week date returns the route the grid was saved under |

## Left out

- React rendering, hooks and effect timing are not modelled. This includes the `onStateChange`
  propagation keyed on `JSON.stringify` (src/components/Grid.tsx:68-72, src/components/Tile.tsx:23-28)
  and how tile clicks reach the grid's update. These are UI plumbing.
- Real `Date` behaviour is not modelled: local time versus UTC, month rollover, `toISOString`,
  `toLocaleDateString`, and the month/day text of column headings. Days are integers. The locale
  string and the ISO rendering are inputs. A heading is a (weekday name, day) pair.
- The S3 client is not modelled: `initializeStorage`, `deleteState`, `listSavedStates`, request
  parameters, JSON encoding and error-code mapping. It is network I/O over a library not part of
  this model. Each upload or download is a success flag. The store is a map, and JSON is taken to
  round-trip.
- `fetch`, the request URL and its encoding are not modelled. A request is a per-item outcome.
- The `gapi` library is not modelled: loading, the event resource with its time-zone lookup, and
  `signOut`. `signOut` only forwards to the library, and its effect reaches the flags through the
  modelled sign-in listener.
- Calendar.CreateEvents: the flags are held fixed for the whole batch, because a listener firing
  between two awaited inserts is a concurrency effect.
- The config checks and the load/save handlers in src/App.tsx are left out. They are effects,
  apart from the API-token check of the sync handler, which is modelled. The argument mismatch
  between those handlers and the storage signatures is also left out: the storage functions are
  modelled as declared.
- Task fields `label`, `labels`, `calendar`, `taskDate`, `stateStartTime` and `stateEndTime` are
  not modelled. The client never reads them, and the sync handler never sets them.
- App.TaskForTile: a row index outside the five headings does not make the handler fail. The
  template literal prints "undefined", and the model does the same. An unknown state index
  throws (reading `.label` of `undefined`), and the model reports that error. A column index
  far enough out of range to put the due date outside what a JavaScript `Date` can hold also
  throws, in `toISOString`; that is left out with real `Date` behaviour, since the ISO rendering
  is an input here.
- JavaScript `number` values (row, column, state index, week offset) are modelled as unbounded
  integers. A saved grid is taken to hold integers, so a fractional or `NaN` index read back from
  stored JSON is not modelled.
- Tile.Next: for a negative index the contract states nothing beyond the range of JsRem. A
  negative index can only come from a corrupted saved grid.

## Findings

| source | as written | input that shows it | evidently intended | confidence | as-written member | corrected member |
|---|---|---|---|---|---|---|
| src/App.tsx:170-175 | Derived tasks carry no `projectId`, and `createTask` (src/utils/todoistApi.ts:33-35) refuses any task without one, so a sync sends no request and reports every task as failed | a grid with one tile `(row 0, col 0, state 1)` | attach the configured project id to each task | high (not executed) | App.DerivedTasksNeverSendable | App.ProjectTasksSendable |
| src/App.tsx:84-87 | The route name is taken as the last `/`-segment of each listed key, but saved keys end in `/<formatted week>`, so the week date is returned | route `kids`, week `6/3/2024`: the key `checkin-app/kids/6-3-2024` is listed as `6-3-2024` | take the segment in front of the week date | medium (not executed) | App.RouteNameCounterexample | App.RouteOfObjectKeyRoundTrip |

`App.SyncToTodoistWithProject` is the corrected sync handler. It uses the derivation with the
project id attached. `App.RouteOfObjectKey` is the corrected route extraction.

=== FILE: app.dfy ===
/** The application's own logic (src/App.tsx): deriving to-do tasks from the
    grid when syncing, and reading route names back from stored keys. */
module App {
  import opened Wrappers
  import Tile
  import Grid
  import Dates
  import Storage
  import Todoist
  import Batch

  /** Reading the label of a state index outside the state list throws a
      `TypeError`; the sync handler catches it. */
  datatype DeriveError = UnknownState(stateIndex: int)

  /** The text a template literal shows for `rowHeadings[rowIndex]`: the
      heading, or "undefined" for an index outside the list. */
  function RowDescription(rowIndex: int): (d: string)
    ensures 0 <= rowIndex < |Grid.RowHeadings| ==> d == Grid.RowHeadings[rowIndex]
    ensures !(0 <= rowIndex < |Grid.RowHeadings|) ==> d == "undefined"
  {
    if 0 <= rowIndex < |Grid.RowHeadings| then Grid.RowHeadings[rowIndex] else "undefined"
  }

  /** Priority by state label: A is the highest (4), B the lowest (2), every
      other label 3. */
  function Priority(letter: string): (p: int)
    ensures 2 <= p <= 4
    ensures p == 4 <==> letter == "A"
    ensures p == 2 <==> letter == "B"
  {
    if letter == "A" then 4 else if letter == "B" then 2 else 3
  }

  /** A tile that produces a task: any state other than the empty state 0. */
  predicate Assigned(e: Grid.Entry) {
    e.stateIndex != 0
  }

  /** A tile whose state the handler can look up. */
  predicate KnownState(e: Grid.Entry) {
    0 <= e.stateIndex < |Tile.AppStates|
  }

  /** The assigned tiles, in grid-state order. With AssignedTilesAppend,
      the one-tile case fixes both the order and the multiplicity. */
  function AssignedTiles(g: Grid.GridState): (a: Grid.GridState)
    ensures |a| <= |g|
    ensures forall k :: 0 <= k < |a| ==> Assigned(a[k])
    ensures |a| == 0 <==> forall i :: 0 <= i < |g| ==> !Assigned(g[i])
    ensures |g| == 1 ==> a == if Assigned(g[0]) then g else []
  {
    if |g| == 0 then []
    else (if Assigned(g[0]) then [g[0]] else []) + AssignedTiles(g[1..])
  }

  /** Each assigned tile is kept as often as it occurs in the grid; every
      other tile is dropped. */
  lemma {:induction false} AssignedTilesCounts(g: Grid.GridState, e: Grid.Entry)
    ensures multiset(AssignedTiles(g))[e] == if Assigned(e) then multiset(g)[e] else 0
  {
    if |g| > 0 {
      assert g == [g[0]] + g[1..];
      AssignedTilesCounts(g[1..], e);
    }
  }

  /** Filtering distributes over concatenation, so the assigned tiles of a
      grid are those of each part, in order. */
  lemma {:induction false} AssignedTilesAppend(x: Grid.GridState, y: Grid.GridState)
    ensures AssignedTiles(x + y) == AssignedTiles(x) + AssignedTiles(y)
  {
    if |x| == 0 {
      assert x + y == y;
    } else {
      var head := if Assigned(x[0]) then [x[0]] else [];
      assert (x + y)[0] == x[0];
      assert (x + y)[1..] == x[1..] + y;
      assert AssignedTiles(x + y) == head + AssignedTiles(x[1..] + y);
      AssignedTilesAppend(x[1..], y);
      assert AssignedTiles(x) == head + AssignedTiles(x[1..]);
    }
  }

  /** Exactly the assigned tiles of the grid are kept. */
  lemma {:induction false} AssignedTilesMembers(g: Grid.GridState, e: Grid.Entry)
    ensures e in AssignedTiles(g) <==> e in g && Assigned(e)
  {
    if |g| > 0 {
      AssignedTilesMembers(g[1..], e);
      assert g == [g[0]] + g[1..];
    }
  }

  /** Every assigned tile can be looked up. */
  predicate AllKnown(g: Grid.GridState) {
    forall i :: 0 <= i < |g| && Assigned(g[i]) ==> KnownState(g[i])
  }

  /** The task for one tile: `<label> - <row>`, due on Monday plus the column
      index, with a description naming the row and that same date, and the
      label's priority. `isoDate` renders a day as `YYYY-MM-DD`. */
  function TaskForTile(e: Grid.Entry, monday: int, isoDate: int -> string,
                       projectId: Option<string>): (t: Todoist.Task)
    requires KnownState(e)
    ensures t.dueDate == Some(isoDate(monday + e.col))
    ensures t.description == Some("Task for " + RowDescription(e.row) + " on " + t.dueDate.value)
    ensures t.content == Tile.AppStates[e.stateIndex].letter + " - " + RowDescription(e.row)
    ensures t.priority == Some(Priority(Tile.AppStates[e.stateIndex].letter))
    ensures t.projectId == projectId && t.assignee.None?
  {
    var letter := Tile.AppStates[e.stateIndex].letter;
    var row := RowDescription(e.row);
    var date := isoDate(monday + e.col);
    Todoist.Task(
      letter + " - " + row,
      Some("Task for " + row + " on " + date),
      projectId,
      Some(date),
      Some(Priority(letter)),
      None)
  }

  /** The first assigned tile whose state cannot be looked up, if any. */
  predicate FirstUnknown(g: Grid.GridState, i: int) {
    && 0 <= i < |g|
    && Assigned(g[i]) && !KnownState(g[i])
    && forall j :: 0 <= j < i ==> !Assigned(g[j]) || KnownState(g[j])
  }

  /** Task `k` is the task of tile `k`, for every `k`. */
  predicate TasksMatch(tiles: Grid.GridState, tasks: seq<Todoist.Task>, monday: int,
                       isoDate: int -> string, projectId: Option<string>) {
    && |tasks| == |tiles|
    && forall k :: 0 <= k < |tasks| ==>
         KnownState(tiles[k]) && tasks[k] == TaskForTile(tiles[k], monday, isoDate, projectId)
  }

  /** The task derivation of the sync handler, for a given project id: one
      task per assigned tile, in grid-state order. The first assigned tile
      with an unknown state aborts the whole derivation. */
  function DeriveTasksFor(g: Grid.GridState, monday: int, isoDate: int -> string,
                          projectId: Option<string>): (r: Result<seq<Todoist.Task>, DeriveError>)
    ensures r.Ok? <==> AllKnown(g)
    ensures r.Err? ==> exists i :: FirstUnknown(g, i) && r.error == UnknownState(g[i].stateIndex)
    ensures r.Ok? ==> TasksMatch(AssignedTiles(g), r.value, monday, isoDate, projectId)
  {
    if |g| == 0 then Ok([])
    else
      var rest := DeriveTasksFor(g[1..], monday, isoDate, projectId);
      DropFirstTile(g);
      if Assigned(g[0]) && !KnownState(g[0]) then
        assert FirstUnknown(g, 0);
        Err(UnknownState(g[0].stateIndex))
      else if rest.Err? then
        var i :| FirstUnknown(g[1..], i) && rest.error == UnknownState(g[1..][i].stateIndex);
        FirstUnknownShift(g, i);
        rest
      else if Assigned(g[0]) then
        var t := TaskForTile(g[0], monday, isoDate, projectId);
        PrependTask(AssignedTiles(g), rest.value, t, monday, isoDate, projectId);
        Ok([t] + rest.value)
      else rest
  }

  /** How the grid and its assigned tiles relate to the grid without its
      first tile. */
  lemma DropFirstTile(g: Grid.GridState)
    requires |g| > 0
    ensures forall i :: 1 <= i < |g| ==> g[1..][i - 1] == g[i]
    ensures Assigned(g[0]) ==> AssignedTiles(g) == [g[0]] + AssignedTiles(g[1..])
    ensures !Assigned(g[0]) ==> AssignedTiles(g) == AssignedTiles(g[1..])
  {
  }

  /** An unknown state found after a harmless first tile is the first one. */
  lemma FirstUnknownShift(g: Grid.GridState, i: int)
    requires |g| > 0 && (!Assigned(g[0]) || KnownState(g[0]))
    requires FirstUnknown(g[1..], i)
    ensures FirstUnknown(g, i + 1)
    ensures g[1..][i] == g[i + 1]
  {
  }

  /** Prepending the first tile's task keeps the tasks aligned with the
      assigned tiles. */
  lemma PrependTask(tiles: Grid.GridState, tasks: seq<Todoist.Task>, t: Todoist.Task,
                    monday: int, isoDate: int -> string, projectId: Option<string>)
    requires |tiles| == |tasks| + 1 && KnownState(tiles[0])
    requires t == TaskForTile(tiles[0], monday, isoDate, projectId)
    requires TasksMatch(tiles[1..], tasks, monday, isoDate, projectId)
    ensures TasksMatch(tiles, [t] + tasks, monday, isoDate, projectId)
  {
  }

  /** The derivation exactly as the sync handler writes it: no project id. */
  function DeriveTasks(g: Grid.GridState, monday: int, isoDate: int -> string): (r: Result<seq<Todoist.Task>, DeriveError>)
    ensures r.Ok? ==> forall k :: 0 <= k < |r.value| ==> r.value[k].projectId.None?
  {
    DeriveTasksFor(g, monday, isoDate, None)
  }

  /** A grid with no assigned tile yields no task. */
  lemma EmptyGridNoTasks(g: Grid.GridState, monday: int, isoDate: int -> string, projectId: Option<string>)
    requires forall i :: 0 <= i < |g| ==> !Assigned(g[i])
    ensures DeriveTasksFor(g, monday, isoDate, projectId) == Ok([])
  {
  }

  /** Every task the handler derives is refused by the client's guard: no
      task carries a project id. */
  lemma DerivedTasksNeverSendable(g: Grid.GridState, monday: int, isoDate: int -> string)
    ensures DeriveTasks(g, monday, isoDate).Ok? ==>
      forall k :: 0 <= k < |DeriveTasks(g, monday, isoDate).value| ==> !Todoist.Sendable(DeriveTasks(g, monday, isoDate).value[k])
  {
  }

  /** With a non-empty project id, every derived task passes the client's
      guard, since the rendered date is never empty. */
  lemma ProjectTasksSendable(g: Grid.GridState, monday: int, isoDate: int -> string, projectId: string)
    requires projectId != ""
    requires forall d :: isoDate(d) != ""
    ensures DeriveTasksFor(g, monday, isoDate, Some(projectId)).Ok? ==>
      forall k :: 0 <= k < |DeriveTasksFor(g, monday, isoDate, Some(projectId)).value| ==>
        Todoist.Sendable(DeriveTasksFor(g, monday, isoDate, Some(projectId)).value[k])
  {
  }

  /** The status line the sync handler leaves behind. `NotStarted`: the
      handler returned at once; `SyncError`: an exception was caught. */
  datatype SyncStatus =
    | NotStarted
    | SyncError
    | NothingToSync
    | Synced(count: nat)
    | PartlySynced(succeeded: nat, failed: nat)

  /** `syncToTodoist` as written: needs an API token and a grid; derives
      tasks for the week of `today`; skips the client when there is no
      task. `sent` counts the requests made. */
  method SyncToTodoist(apiToken: string, appState: Option<Grid.GridState>, today: int,
                       isoDate: int -> string, respond: nat -> Todoist.Response)
    returns (status: SyncStatus, sent: nat)
    ensures apiToken == "" || appState.None? ==> status == NotStarted
    ensures apiToken != "" && appState.Some? ==>
      (status == SyncError <==> exists i :: 0 <= i < |appState.value| && Assigned(appState.value[i]) && !KnownState(appState.value[i]))
    ensures status == NothingToSync <==>
      apiToken != "" && appState.Some? && forall i :: 0 <= i < |appState.value| ==> !Assigned(appState.value[i])
    ensures apiToken != "" && appState.Some? && AllKnown(appState.value) && |AssignedTiles(appState.value)| > 0
      ==> status == PartlySynced(0, |AssignedTiles(appState.value)|)
    ensures sent == 0
    ensures !status.Synced?
    ensures status.PartlySynced? ==> status.succeeded == 0 && status.failed == |AssignedTiles(appState.value)| > 0
  {
    status, sent := NotStarted, 0;
    if apiToken == "" || appState.None? {
      return;
    }
    var monday := Dates.CurrentMonday(today);
    var derived := DeriveTasks(appState.value, monday, isoDate);
    if forall i :: 0 <= i < |appState.value| ==> !Assigned(appState.value[i]) {
      EmptyGridNoTasks(appState.value, monday, isoDate, None);
    }
    if derived.Err? {
      status := SyncError;
      return;
    }
    var tasks := derived.value;
    if |tasks| == 0 {
      status := NothingToSync;
      return;
    }
    DerivedTasksNeverSendable(appState.value, monday, isoDate);
    var r;
    r, sent := Todoist.CreateTasks(tasks, respond);
    status := if r.success then Synced(r.totalSuccess) else PartlySynced(r.totalSuccess, r.totalFailed);
  }

  /** The sync with the configured project id attached to every task: with
      a non-empty id each assigned tile causes one request, and the sync
      reports success exactly when every request succeeded. */
  method SyncToTodoistWithProject(apiToken: string, projectId: string, appState: Option<Grid.GridState>,
                                  today: int, isoDate: int -> string, respond: nat -> Todoist.Response)
    returns (status: SyncStatus, sent: nat)
    requires forall d :: isoDate(d) != ""
    ensures apiToken == "" || appState.None? ==> status == NotStarted && sent == 0
    ensures status == NothingToSync <==>
      apiToken != "" && appState.Some? && forall i :: 0 <= i < |appState.value| ==> !Assigned(appState.value[i])
    ensures apiToken != "" && appState.Some? && AllKnown(appState.value) && |AssignedTiles(appState.value)| > 0 ==>
      || (status.Synced? && status.count == |AssignedTiles(appState.value)|)
      || (status.PartlySynced? && status.succeeded + status.failed == |AssignedTiles(appState.value)|)
    ensures apiToken != "" && appState.Some? && projectId != "" && AllKnown(appState.value)
      && |AssignedTiles(appState.value)| > 0
      && (forall i: nat :: i < |AssignedTiles(appState.value)| ==> respond(i) == Todoist.ResponseOk)
      ==> status == Synced(|AssignedTiles(appState.value)|)
    ensures apiToken != "" && appState.Some? && projectId != "" && status != SyncError ==>
      sent == |AssignedTiles(appState.value)|
    ensures status.Synced? ==> status.count == sent > 0
    ensures projectId != "" && status.PartlySynced? ==> exists i: nat :: i < sent && respond(i) != Todoist.ResponseOk
    ensures projectId != "" && status.Synced? ==> forall i: nat :: i < sent ==> respond(i) == Todoist.ResponseOk
    ensures apiToken != "" && appState.Some? ==>
      (status == SyncError <==> exists i :: 0 <= i < |appState.value| && Assigned(appState.value[i]) && !KnownState(appState.value[i]))
    ensures (status.PartlySynced? && appState.Some? &&
             DeriveTasksFor(appState.value, Dates.CurrentMonday(today), isoDate, Some(projectId)).Ok?) ==>
      var tasks := DeriveTasksFor(appState.value, Dates.CurrentMonday(today), isoDate, Some(projectId)).value;
      status.succeeded == Todoist.CountOk(tasks, respond) && status.failed == |tasks| - Todoist.CountOk(tasks, respond)
  {
    status, sent := NotStarted, 0;
    if apiToken == "" || appState.None? {
      return;
    }
    var monday := Dates.CurrentMonday(today);
    var derived := DeriveTasksFor(appState.value, monday, isoDate, Some(projectId));
    if derived.Err? {
      status := SyncError;
      return;
    }
    var tasks := derived.value;
    if |tasks| == 0 {
      status := NothingToSync;
      return;
    }
    var r;
    r, sent := Todoist.CreateTasks(tasks, respond);
    if projectId != "" {
      ProjectTasksSendable(appState.value, monday, isoDate, projectId);
      AllSendableCounted(tasks);
    }
    status := if r.success then Synced(r.totalSuccess) else PartlySynced(r.totalSuccess, r.totalFailed);
  }

  lemma {:induction false} AllSendableCounted(tasks: seq<Todoist.Task>)
    requires forall k :: 0 <= k < |tasks| ==> Todoist.Sendable(tasks[k])
    ensures Todoist.CountSendable(tasks) == |tasks|
  {
    if |tasks| > 0 {
      AllSendableCounted(tasks[1..]);
    }
  }

  /** The route-name extraction applied to listed keys: the last
      `/`-separated segment of each. */
  function RouteNames(keys: seq<string>): (names: seq<string>)
    ensures |names| == |keys|
    ensures forall i :: 0 <= i < |keys| ==> names[i] == Storage.LastSegment(keys[i])
    ensures forall i :: 0 <= i < |keys| ==> '/' !in names[i]
  {
    seq(|keys|, i requires 0 <= i < |keys| => Storage.LastSegment(keys[i]))
  }

  /** As written, the extraction applied to a saved grid's object key yields
      the formatted week date, not the route. */
  lemma RouteNameOfObjectKeyIsDate(baseKey: string, weekDate: string, routeName: Option<string>)
    ensures RouteNames([Storage.ObjectKey(baseKey, weekDate, routeName)])[0] == Dates.FormatDate(weekDate)
  {
  }

  /** A concrete case: route "kids" saved for the week "6/3/2024" is listed
      as "6-3-2024". */
  lemma RouteNameCounterexample()
    ensures RouteNames([Storage.ObjectKey("checkin-app/default-state", "6/3/2024", Some("kids"))])[0] != "kids"
  {
  }

  /** The route of a saved grid's object key: the segment in front of the
      week date. */
  function RouteOfObjectKey(key: string): (route: string)
    ensures '/' !in route
  {
    var i := Storage.LastIndexOf(key, '/');
    if i >= 0 then Storage.LastSegment(key[..i]) else Storage.LastSegment(key)
  }

  /** Reading the route from an object key gives back the route it was saved
      under, for any non-empty route without `/`. */
  lemma RouteOfObjectKeyRoundTrip(baseKey: string, weekDate: string, routeName: string)
    requires routeName != "" && '/' !in routeName
    ensures RouteOfObjectKey(Storage.ObjectKey(baseKey, weekDate, Some(routeName))) == routeName
  {
    var k := Storage.ObjectKey(baseKey, weekDate, Some(routeName));
    var s := Storage.StorageKey(baseKey, Some(routeName));
    assert k[..|s|] == s;
    Storage.LastSegmentOfRouteKey(baseKey, routeName);
  }
}

=== FILE: batch.dfy ===
/** The tally loop shared by the two API clients (`createTasks` in
    src/utils/todoistApi.ts and `createEvents` in
    src/utils/googleCalendarApi.ts): one call per item, in order, counting
    successes and failures; a call that throws counts as a failure and the
    loop carries on. */
module Batch {

  /** How one per-item call ended. */
  datatype ItemOutcome = Succeeded | Failed | Threw

  /** A per-item call that may be refused before any request is made. */
  datatype Call = Rejected | Sent(ok: bool)

  /** What a batch reports. */
  datatype BatchResult = BatchResult(success: bool, totalSuccess: nat, totalFailed: nat)

  /** A client function returning a boolean: `true` only for a request that
      was made and succeeded. */
  function OutcomeOf(c: Call): (o: ItemOutcome)
    ensures o != Threw
    ensures o == Succeeded <==> c == Sent(true)
  {
    if c == Sent(true) then Succeeded else Failed
  }

  /** Items that succeeded. */
  function CountSucceeded(s: seq<ItemOutcome>): nat {
    if |s| == 0 then 0
    else CountSucceeded(s[..|s| - 1]) + (if s[|s| - 1] == Succeeded then 1 else 0)
  }

  /** Items that failed, whether by returning `false` or by throwing. */
  function CountFailed(s: seq<ItemOutcome>): nat {
    if |s| == 0 then 0
    else CountFailed(s[..|s| - 1]) + (if s[|s| - 1] != Succeeded then 1 else 0)
  }

  /** Every item is counted exactly once. */
  lemma {:induction false} CountsCoverBatch(s: seq<ItemOutcome>)
    ensures CountSucceeded(s) + CountFailed(s) == |s|
  {
    if |s| > 0 {
      CountsCoverBatch(s[..|s| - 1]);
    }
  }

  /** No failure is counted exactly when every item succeeded. */
  lemma {:induction false} NoFailureMeansAllSucceeded(s: seq<ItemOutcome>)
    ensures CountFailed(s) == 0 <==> forall i :: 0 <= i < |s| ==> s[i] == Succeeded
  {
    if |s| > 0 {
      NoFailureMeansAllSucceeded(s[..|s| - 1]);
      assert forall i :: 0 <= i < |s| - 1 ==> s[..|s| - 1][i] == s[i];
    }
  }

  /** Counts add up over consecutive parts of a batch. */
  lemma {:induction false} CountsSplit(a: seq<ItemOutcome>, b: seq<ItemOutcome>)
    ensures CountSucceeded(a + b) == CountSucceeded(a) + CountSucceeded(b)
    ensures CountFailed(a + b) == CountFailed(a) + CountFailed(b)
  {
    if |b| > 0 {
      assert (a + b)[..|a + b| - 1] == a + b[..|b| - 1];
      CountsSplit(a, b[..|b| - 1]);
    } else {
      assert a + b == a;
    }
  }

  /** A thrown call counts as one failure, and the items after it are still
      counted: it does not end the batch. This is the loop's own catch, a
      defensive one: both clients catch their own errors and return `false`
      (see OutcomeOf), so neither produces `Threw`. */
  lemma ThrowCountsOnceAndContinues(before: seq<ItemOutcome>, after: seq<ItemOutcome>)
    ensures CountFailed(before + [Threw] + after) == CountFailed(before) + 1 + CountFailed(after)
    ensures CountSucceeded(before + [Threw] + after) == CountSucceeded(before) + CountSucceeded(after)
  {
    CountsSplit(before, [Threw]);
    CountsSplit(before + [Threw], after);
    assert CountFailed([Threw]) == 1 by {
      assert [Threw][..0] == [];
    }
    assert CountSucceeded([Threw]) == 0 by {
      assert [Threw][..0] == [];
    }
  }

  /** The tally loop over the per-item outcomes. */
  method RunBatch(outcomes: seq<ItemOutcome>) returns (r: BatchResult)
    ensures r.totalSuccess == CountSucceeded(outcomes)
    ensures r.totalFailed == CountFailed(outcomes)
    ensures r.totalSuccess + r.totalFailed == |outcomes|
    ensures r.success <==> r.totalFailed == 0
    ensures r.success <==> forall i :: 0 <= i < |outcomes| ==> outcomes[i] == Succeeded
  {
    var totalSuccess := 0;
    var totalFailed := 0;
    var i := 0;
    while i < |outcomes|
      invariant 0 <= i <= |outcomes|
      invariant totalSuccess == CountSucceeded(outcomes[..i])
      invariant totalFailed == CountFailed(outcomes[..i])
    {
      assert outcomes[..i + 1][..i] == outcomes[..i];
      if outcomes[i] == Succeeded {
        totalSuccess := totalSuccess + 1;
      } else {
        totalFailed := totalFailed + 1;
      }
      i := i + 1;
    }
    assert outcomes[..i] == outcomes;
    CountsCoverBatch(outcomes);
    NoFailureMeansAllSucceeded(outcomes);
    r := BatchResult(totalFailed == 0, totalSuccess, totalFailed);
  }
}

=== FILE: calendar.dfy ===
/** The calendar client (src/utils/googleCalendarApi.ts). The two module-wide
    flags become an explicit `Auth` value; every library call is an outcome
    passed in. */
module Calendar {
  import opened Wrappers
  import Batch

  /** The client's authentication flags, plus whether the sign-in listener
      has been registered (the listener is what later updates
      `isSignedIn`). */
  datatype Auth = Auth(gapiInitialized: bool, isSignedIn: bool, listening: bool)

  /** Both flags start out false. */
  const Initial: Auth := Auth(false, false, false)

  /** `isAuthorized`. */
  function IsAuthorized(a: Auth): (b: bool)
    ensures b ==> a.gapiInitialized
    ensures b ==> a.isSignedIn
  {
    a.gapiInitialized && a.isSignedIn
  }

  /** How client initialisation ends: the library init (or the lookup of the
      auth instance) throws before the listener is registered; or the
      listener is registered and reading the sign-in state throws; or
      everything succeeds and the current sign-in state is read. */
  datatype InitOutcome = InitThrows | SignInReadThrows | InitSucceeds(signedIn: bool)

  datatype InitResult = InitResult(resolved: bool, auth: Auth)

  /** `initGoogleCalendarClient`: resolves `true` and sets `gapiInitialized`
      only when the whole sequence succeeds; on any error it resolves
      `false` and leaves both flags as they were. */
  function InitClient(a: Auth, outcome: InitOutcome): (r: InitResult)
    ensures r.resolved <==> outcome.InitSucceeds?
    ensures r.auth.gapiInitialized <==> a.gapiInitialized || outcome.InitSucceeds?
    ensures !outcome.InitSucceeds? ==> r.auth.gapiInitialized == a.gapiInitialized && r.auth.isSignedIn == a.isSignedIn
    ensures outcome.InitSucceeds? ==> r.auth.isSignedIn == outcome.signedIn
    ensures r.auth.listening <==> a.listening || !outcome.InitThrows?
  {
    match outcome
    case InitThrows => InitResult(false, a)
    case SignInReadThrows => InitResult(false, a.(listening := true))
    case InitSucceeds(signedIn) => InitResult(true, Auth(true, signedIn, true))
  }

  /** The sign-in listener firing: it updates `isSignedIn` once registered. */
  function SignInChanged(a: Auth, signedIn: bool): (r: Auth)
    ensures r.gapiInitialized == a.gapiInitialized
    ensures a.listening ==> r.isSignedIn == signedIn
    ensures !a.listening ==> r == a
  {
    if a.listening then a.(isSignedIn := signedIn) else a
  }

  /** Things that change the flags. */
  datatype AuthEvent = Init(outcome: InitOutcome) | Listener(signedIn: bool)

  function Step(a: Auth, e: AuthEvent): Auth {
    match e
    case Init(o) => InitClient(a, o).auth
    case Listener(b) => SignInChanged(a, b)
  }

  /** The flags after a sequence of events. */
  function Run(a: Auth, events: seq<AuthEvent>): Auth {
    if |events| == 0 then a else Step(Run(a, events[..|events| - 1]), events[|events| - 1])
  }

  /** An initialisation that succeeded. */
  predicate InitSucceeded(e: AuthEvent) {
    e.Init? && e.outcome.InitSucceeds?
  }

  /** From the initial flags, `gapiInitialized` holds exactly when some
      initialisation succeeded; failed ones never set it. */
  lemma {:induction false} InitializedOnlyBySuccess(events: seq<AuthEvent>)
    ensures Run(Initial, events).gapiInitialized <==> exists i :: 0 <= i < |events| && InitSucceeded(events[i])
  {
    if |events| > 0 {
      var front := events[..|events| - 1];
      InitializedOnlyBySuccess(front);
      assert forall i :: 0 <= i < |front| ==> front[i] == events[i];
      if Run(Initial, events).gapiInitialized && !Run(Initial, front).gapiInitialized {
        assert InitSucceeded(events[|events| - 1]);
      }
    }
  }

  /** How `authorizeCalendar`'s library calls end once it gets past the
      guard: the sign-in or the state read throws, or the library reports
      the resulting sign-in state. */
  datatype AuthorizeOutcome = AuthorizeThrows | Reports(signedIn: bool)

  datatype AuthorizeResult = AuthorizeResult(authorized: bool, signInRequested: bool)

  /** `authorizeCalendar`: refuses before touching the library when the
      client is not initialised; asks the user to sign in only when not
      signed in; answers with what the library reports. */
  function AuthorizeCalendar(a: Auth, outcome: AuthorizeOutcome): (r: AuthorizeResult)
    ensures !a.gapiInitialized ==> !r.authorized && !r.signInRequested
    ensures r.signInRequested <==> a.gapiInitialized && !a.isSignedIn
    ensures r.authorized <==> a.gapiInitialized && outcome == Reports(true)
  {
    if !a.gapiInitialized then AuthorizeResult(false, false)
    else
      var asked := !a.isSignedIn;
      match outcome
      case AuthorizeThrows => AuthorizeResult(false, asked)
      case Reports(signedIn) => AuthorizeResult(signedIn, asked)
  }

  /** An event as the caller describes it; date-times are ISO strings. */
  datatype Event = Event(
    summary: string,
    description: Option<string>,
    location: Option<string>,
    startDateTime: string,
    endDateTime: string
  )

  /** How an insert request ends: a response with a status code, or a throw. */
  datatype InsertOutcome = InsertStatus(status: int) | InsertThrows

  /** `createEvent`: refused without an insert when not authorised; otherwise
      `true` exactly for a 200 response. */
  function CreateEvent(a: Auth, e: Event, insert: InsertOutcome): (c: Batch.Call)
    ensures c.Rejected? <==> !IsAuthorized(a)
    ensures c == Batch.Sent(true) <==> IsAuthorized(a) && insert == InsertStatus(200)
  {
    if !IsAuthorized(a) then Batch.Rejected
    else
      match insert
      case InsertStatus(status) => Batch.Sent(status == 200)
      case InsertThrows => Batch.Sent(false)
  }

  /** Of the first `n` events, those whose insert is attempted and answered
      with status 200: the successes a batch should report. */
  function CountInserted(a: Auth, n: nat, respond: nat -> InsertOutcome): (k: nat)
    ensures k <= n
    ensures !IsAuthorized(a) ==> k == 0
  {
    if n == 0 then 0
    else CountInserted(a, n - 1, respond) + (if IsAuthorized(a) && respond(n - 1) == InsertStatus(200) then 1 else 0)
  }

  /** `createEvents`: one `createEvent` per event, in order, tallied.
      `respond(i)` is how the insert for the `i`-th event would end;
      `inserted` counts the calls that got past the authorisation check and
      so attempted an insert. */
  method CreateEvents(a: Auth, events: seq<Event>, respond: nat -> InsertOutcome)
    returns (r: Batch.BatchResult, inserted: nat)
    ensures r.totalSuccess == CountInserted(a, |events|, respond)
    ensures r.totalFailed == |events| - CountInserted(a, |events|, respond)
    ensures r.totalSuccess + r.totalFailed == |events|
    ensures r.success <==> r.totalFailed == 0
    ensures r.success <==> forall i: nat :: i < |events| ==> IsAuthorized(a) && respond(i) == InsertStatus(200)
    ensures inserted == if IsAuthorized(a) then |events| else 0
    ensures !IsAuthorized(a) ==> r.totalSuccess == 0 && r.totalFailed == |events|
  {
    var outcomes := seq(|events|, i requires 0 <= i < |events| => Batch.OutcomeOf(CreateEvent(a, events[i], respond(i))));
    r := Batch.RunBatch(outcomes);
    forall i: nat | i < |events|
      ensures outcomes[i] == Batch.Succeeded <==> IsAuthorized(a) && respond(i) == InsertStatus(200)
    {
      var c := CreateEvent(a, events[i], respond(i));
      assert outcomes[i] == Batch.OutcomeOf(c);
    }
    if !IsAuthorized(a) {
      NoneSucceeded(outcomes);
    }
    SucceededAreInserted(a, events, respond);
    inserted := 0;
    var i := 0;
    while i < |events|
      invariant 0 <= i <= |events|
      invariant inserted == if IsAuthorized(a) then i else 0
    {
      if CreateEvent(a, events[i], respond(i)).Sent? {
        inserted := inserted + 1;
      }
      i := i + 1;
    }
  }

  /** Nothing reaches the calendar without a successful initialisation: if
      authorisation succeeds or an insert is attempted after a run of
      events from the initial flags, one of those events was a successful
      init. */
  lemma AccessNeedsSuccessfulInit(events: seq<AuthEvent>, o: AuthorizeOutcome, e: Event, insert: InsertOutcome)
    ensures AuthorizeCalendar(Run(Initial, events), o).authorized ==>
      exists i :: 0 <= i < |events| && InitSucceeded(events[i])
    ensures CreateEvent(Run(Initial, events), e, insert).Sent? ==>
      exists i :: 0 <= i < |events| && InitSucceeded(events[i])
  {
    InitializedOnlyBySuccess(events);
  }

  /** The batch's successes are exactly the attempted inserts answered 200. */
  lemma {:induction false} SucceededAreInserted(a: Auth, events: seq<Event>, respond: nat -> InsertOutcome)
    ensures Batch.CountSucceeded(seq(|events|, i requires 0 <= i < |events| => Batch.OutcomeOf(CreateEvent(a, events[i], respond(i)))))
      == CountInserted(a, |events|, respond)
  {
    var outcomes := seq(|events|, i requires 0 <= i < |events| => Batch.OutcomeOf(CreateEvent(a, events[i], respond(i))));
    if |events| > 0 {
      var n := |events| - 1;
      var front := events[..n];
      SucceededAreInserted(a, front, respond);
      var frontOutcomes := seq(|front|, i requires 0 <= i < |front| => Batch.OutcomeOf(CreateEvent(a, front[i], respond(i))));
      assert outcomes[..n] == frontOutcomes;
      var c := CreateEvent(a, events[n], respond(n));
      assert outcomes[n] == Batch.OutcomeOf(c);
    }
  }

  /** A batch in which nothing succeeded counts no success. */
  lemma {:induction false} NoneSucceeded(s: seq<Batch.ItemOutcome>)
    requires forall i :: 0 <= i < |s| ==> s[i] != Batch.Succeeded
    ensures Batch.CountSucceeded(s) == 0
  {
    if |s| > 0 {
      NoneSucceeded(s[..|s| - 1]);
    }
  }
}

=== FILE: config.dfy ===
/** The two storage-key constants of the application configuration. */
module Config {

  /** The prefix under which every saved grid is listed. */
  const StateKeyPrefix: string := "checkin-app/"

  /** The base key that route keys are derived from. */
  const DefaultStateKey: string := "checkin-app/default-state"
}

=== FILE: dates.dfy ===
/** Date helpers (src/utils/dates.ts). Dates are whole day numbers; day 0 is
    a Sunday, so the weekday numbering agrees with `Date.getDay`
    (0 = Sunday, 1 = Monday, ..., 6 = Saturday). */
module Dates {

  const Sunday := 0
  const Monday := 1

  /** The weekday of a day number, as `Date.getDay` reports it. */
  function Weekday(day: int): (w: int)
    ensures 0 <= w < 7
  {
    day % 7
  }

  /** How many days back the Monday of the current week lies. Sunday counts
      as the last day of the week, six days after its Monday. */
  function DaysFromMonday(weekday: int): (d: int)
    requires 0 <= weekday < 7
    ensures 0 <= d < 7
    ensures (weekday - d) % 7 == Monday
    ensures weekday == Monday ==> d == 0
    ensures weekday == Sunday ==> d == 6
  {
    if weekday == Sunday then 6 else weekday - 1
  }

  /** The Monday of the week that contains `today`. */
  function CurrentMonday(today: int): (m: int)
    ensures Weekday(m) == Monday
    ensures m <= today < m + 7
  {
    var back := DaysFromMonday(Weekday(today));
    assert today == 7 * (today / 7) + Weekday(today);
    assert today - back == 7 * (today / 7) + (Weekday(today) - back);
    WeekdayShift(today / 7, Weekday(today) - back);
    today - back
  }

  /** `getMondayWithOffset`: the current week's Monday moved by whole weeks. */
  function MondayWithOffset(today: int, weekOffset: int): (m: int)
    ensures Weekday(m) == Monday
    ensures m - CurrentMonday(today) == 7 * weekOffset
  {
    WeekdayShift(weekOffset, CurrentMonday(today));
    CurrentMonday(today) + weekOffset * 7
  }

  /** Moving by whole weeks keeps the weekday. */
  lemma WeekdayShift(weeks: int, day: int)
    ensures Weekday(7 * weeks + day) == Weekday(day)
  {
  }

  /** The only Monday in the seven days ending at `today` is the current
      Monday: it is fixed by those two facts alone. */
  lemma CurrentMondayUnique(today: int, m: int)
    requires Weekday(m) == Monday && m <= today < m + 7
    ensures m == CurrentMonday(today)
  {
  }

  /** The Monday `k` weeks away is the Monday of the week containing the day
      `7 * k` days from today. */
  lemma MondayWithOffsetIsThatWeeksMonday(today: int, weekOffset: int)
    ensures MondayWithOffset(today, weekOffset) == CurrentMonday(today + 7 * weekOffset)
  {
  }

  /** `formatDate`: every `/` of the locale date string becomes `-`. The
      locale rendering itself is an input. */
  function FormatDate(localeDate: string): (r: string)
    ensures |r| == |localeDate|
    ensures '/' !in r
    ensures forall i :: 0 <= i < |r| ==> r[i] == (if localeDate[i] == '/' then '-' else localeDate[i])
  {
    if |localeDate| == 0 then ""
    else
      var rest := FormatDate(localeDate[1..]);
      assert forall i :: 1 <= i < |localeDate| ==> localeDate[1..][i - 1] == localeDate[i];
      [if localeDate[0] == '/' then '-' else localeDate[0]] + rest
  }

  /** Formatting an already formatted date changes nothing. */
  lemma FormatDateIdempotent(localeDate: string)
    ensures FormatDate(FormatDate(localeDate)) == FormatDate(localeDate)
  {
  }
}

=== FILE: grid.dfy ===
/** The 5x5 grid (src/components/Grid.tsx): its state is a list of tile
    records keyed by `(row, col)`; lookups and updates use the first record
    with a matching key. */
module Grid {
  import opened Wrappers
  import Dates

  /** One record of the grid state. */
  datatype Entry = Entry(row: int, col: int, stateIndex: int)

  /** The grid state: records in the order they were created or loaded. */
  type GridState = seq<Entry>

  /** The five row labels: two morning slots, two afternoon slots, dinner. */
  const RowHeadings: seq<string> := [
    "AM \U{1F353}", "AM \U{1FAD0}", "PM \U{1F353}", "PM \U{1FAD0}", "Dinner"
  ]

  /** The weekday names of the five column headings. */
  const DayNames: seq<string> := ["Mon", "Tue", "Wed", "Thu", "Fri"]

  predicate At(e: Entry, row: int, col: int) {
    e.row == row && e.col == col
  }

  /** Some record of `g` is keyed `(row, col)`. */
  predicate HasEntry(g: GridState, row: int, col: int) {
    exists j :: 0 <= j < |g| && At(g[j], row, col)
  }

  /** No key occurs in two records. */
  predicate UniqueKeys(g: GridState) {
    forall i, j :: 0 <= i < j < |g| ==> !At(g[j], g[i].row, g[i].col)
  }

  /** `findIndex`: the position of the first record keyed `(row, col)`, or -1. */
  function FindIndex(g: GridState, row: int, col: int): (i: int)
    ensures -1 <= i < |g|
    ensures i >= 0 ==> At(g[i], row, col)
    ensures i >= 0 ==> forall j :: 0 <= j < i ==> !At(g[j], row, col)
    ensures i == -1 <==> !HasEntry(g, row, col)
  {
    if |g| == 0 then -1
    else if At(g[0], row, col) then 0
    else
      var j := FindIndex(g[1..], row, col);
      assert forall k :: 1 <= k < |g| ==> g[1..][k - 1] == g[k];
      if j < 0 then -1 else j + 1
  }

  /** `handleTileStateChange`: overwrite the state of the first record keyed
      `(row, col)`, or append a new record when there is none. */
  function UpdateTile(g: GridState, row: int, col: int, newStateIndex: int): (r: GridState)
    ensures HasEntry(g, row, col) ==>
      && |r| == |g|
      && (forall j :: 0 <= j < |g| ==> At(r[j], g[j].row, g[j].col))
      && (forall j :: 0 <= j < |g| && r[j] != g[j] ==> j == FindIndex(g, row, col))
      && r[FindIndex(g, row, col)].stateIndex == newStateIndex
    ensures !HasEntry(g, row, col) ==>
      && |r| == |g| + 1
      && r[..|g|] == g
      && r[|g|] == Entry(row, col, newStateIndex)
  {
    var i := FindIndex(g, row, col);
    if i >= 0 then g[i := g[i].(stateIndex := newStateIndex)]
    else g + [Entry(row, col, newStateIndex)]
  }

  /** `getTileState`: the state of the first record keyed `(row, col)`, and 0
      (the empty state) when there is none. */
  function GetTileState(g: GridState, row: int, col: int): (s: int)
    ensures !HasEntry(g, row, col) ==> s == 0
    ensures HasEntry(g, row, col) ==>
      exists i :: 0 <= i < |g| && At(g[i], row, col) && s == g[i].stateIndex
        && forall j :: 0 <= j < i ==> !At(g[j], row, col)
  {
    var i := FindIndex(g, row, col);
    if i >= 0 then g[i].stateIndex else 0
  }

  /** After an update, reading the same key gives the new state, even when
      the list holds several records for that key. */
  lemma GetAfterUpdate(g: GridState, row: int, col: int, s: int)
    ensures GetTileState(UpdateTile(g, row, col, s), row, col) == s
  {
  }

  /** An update leaves the state read at every other key unchanged. */
  lemma UpdateKeepsOtherTiles(g: GridState, row: int, col: int, s: int, row': int, col': int)
    requires row != row' || col != col'
    ensures GetTileState(UpdateTile(g, row, col, s), row', col') == GetTileState(g, row', col')
  {
  }

  /** An update never creates a second record for a key. */
  lemma UpdateKeepsKeysUnique(g: GridState, row: int, col: int, s: int)
    requires UniqueKeys(g)
    ensures UniqueKeys(UpdateTile(g, row, col, s))
  {
  }

  /** The record at position `i` of a row-major `rows x cols` grid. */
  predicate RowMajorAt(e: Entry, i: int, rows: int, cols: int) {
    && 0 <= e.row < rows
    && 0 <= e.col < cols
    && e.row * cols + e.col == i
    && e.stateIndex == 0
  }

  /** A grid whose records run row by row, all in the empty state. */
  predicate RowMajor(g: GridState, rows: int, cols: int) {
    forall i :: 0 <= i < |g| ==> RowMajorAt(g[i], i, rows, cols)
  }

  /** The default initialisation loop: one record per cell, row by row, each
      in the empty state 0. */
  method DefaultGridState(rows: nat, cols: nat) returns (g: GridState)
    ensures |g| == rows * cols
    ensures RowMajor(g, rows, cols)
  {
    g := [];
    var r := 0;
    while r < rows
      invariant 0 <= r <= rows
      invariant |g| == r * cols
      invariant RowMajor(g, r, cols)
    {
      var c := 0;
      while c < cols
        invariant 0 <= c <= cols
        invariant |g| == r * cols + c
        invariant RowMajor(g, r + 1, cols)
      {
        g := g + [Entry(r, c, 0)];
        c := c + 1;
      }
      assert |g| == (r + 1) * cols;
      r := r + 1;
    }
  }

  /** A row-major grid holds each key at most once. */
  lemma RowMajorKeysUnique(g: GridState, rows: int, cols: int)
    requires RowMajor(g, rows, cols)
    ensures UniqueKeys(g)
  {
  }

  /** A row-major grid of `rows * cols` records holds every cell, at the
      position `row * cols + col`. */
  lemma {:induction false} RowMajorCoversEveryCell(g: GridState, rows: nat, cols: nat, row: int, col: int)
    requires |g| == rows * cols && RowMajor(g, rows, cols)
    requires 0 <= row < rows && 0 <= col < cols
    ensures 0 <= row * cols + col < |g|
    ensures g[row * cols + col] == Entry(row, col, 0)
  {
    var i := row * cols + col;
    assert i < (row + 1) * cols;
    assert (row + 1) * cols <= rows * cols by {
      MulLeMono(row + 1, rows, cols);
    }
    var e := g[i];
    assert e.row * cols + e.col == i;
    if e.row < row {
      MulLeMono(e.row + 1, row, cols);
    } else if e.row > row {
      MulLeMono(row + 1, e.row, cols);
    }
  }

  lemma MulLeMono(a: int, b: int, c: nat)
    requires a <= b
    ensures a * c <= b * c
  {
  }

  /** The grid state used when nothing was loaded: the 5x5 default. A loaded
      state is taken as it is, even an empty list. */
  method InitialGridState(loaded: Option<GridState>) returns (g: GridState)
    ensures loaded.Some? ==> g == loaded.value
    ensures loaded.None? ==> |g| == 25 && RowMajor(g, 5, 5) && UniqueKeys(g)
    ensures loaded.None? ==> forall row, col :: 0 <= row < 5 && 0 <= col < 5 ==> GetTileState(g, row, col) == 0
  {
    if loaded.Some? {
      g := loaded.value;
    } else {
      g := DefaultGridState(|RowHeadings|, |DayNames|);
      RowMajorKeysUnique(g, 5, 5);
    }
  }

  /** A column heading: the weekday name and the day it stands for. */
  datatype Heading = Heading(dayName: string, day: int)

  /** The five column headings, Monday to Friday of the week of `today`. */
  function WeekHeadings(today: int): (hs: seq<Heading>)
    ensures |hs| == 5
    ensures forall i :: 0 <= i < 5 ==> hs[i].day - Dates.CurrentMonday(today) == i
  {
    var monday := Dates.CurrentMonday(today);
    seq(5, i requires 0 <= i < 5 => Heading(DayNames[i], monday + i))
  }

  /** Each heading's name is the true weekday of its date: "Mon" falls on a
      Monday and so on up to "Fri". */
  lemma HeadingNamesMatchWeekdays(today: int, i: int)
    requires 0 <= i < 5
    ensures Dates.Weekday(WeekHeadings(today)[i].day) == i + 1
    ensures WeekHeadings(today)[i].dayName == DayNames[Dates.Weekday(WeekHeadings(today)[i].day) - 1]
  {
  }
}

=== FILE: storage.dfy ===
/** Object keys of the remote store (src/utils/digitalOceanStorage.ts). A
    saved grid lives under `<directory of the base key><route>/<week date>`.
    The store itself is a map from object keys to grid states. */
module Storage {
  import opened Wrappers
  import Dates
  import Grid
  import Config

  /** `lastIndexOf` for one character: the last position holding `ch`, or -1. */
  function LastIndexOf(s: string, ch: char): (i: int)
    ensures -1 <= i < |s|
    ensures i >= 0 ==> s[i] == ch
    ensures forall j :: i < j < |s| ==> s[j] != ch
  {
    if |s| == 0 then -1
    else if s[|s| - 1] == ch then |s| - 1
    else LastIndexOf(s[..|s| - 1], ch)
  }

  /** `p` is the directory part of `key`: a prefix of `key` that is empty or
      ends in `/`, with no `/` in the rest of `key`. */
  predicate IsDirectoryOf(p: string, key: string) {
    && p <= key
    && (p == [] || p[|p| - 1] == '/')
    && '/' !in key[|p|..]
  }

  /** The directory part of a key: everything up to and including its last
      `/`, or nothing when it has none. */
  function Directory(key: string): (p: string)
    ensures IsDirectoryOf(p, key)
  {
    var i := LastIndexOf(key, '/');
    if i >= 0 then key[..i + 1] else ""
  }

  /** A key has only one directory part. */
  lemma DirectoryUnique(p: string, q: string, key: string)
    requires IsDirectoryOf(p, key) && IsDirectoryOf(q, key)
    ensures p == q
  {
  }

  /** `getKeyForRoute`: the base key's directory followed by the route. */
  function GetKeyForRoute(baseKey: string, routeName: string): (key: string)
    ensures |key| >= |routeName|
    ensures key[|key| - |routeName|..] == routeName
    ensures IsDirectoryOf(key[..|key| - |routeName|], baseKey)
  {
    var k := Directory(baseKey) + routeName;
    assert k[..|k| - |routeName|] == Directory(baseKey);
    k
  }

  /** The part in front of the route depends on the base key alone. */
  lemma KeyPrefixIndependentOfRoute(baseKey: string, routeName: string)
    ensures GetKeyForRoute(baseKey, routeName) == GetKeyForRoute(baseKey, "") + routeName
  {
  }

  /** A base key without `/` contributes nothing: the key is the route. */
  lemma FlatBaseKeyGivesRoute(baseKey: string, routeName: string)
    requires '/' !in baseKey
    ensures GetKeyForRoute(baseKey, routeName) == routeName
  {
  }

  /** Re-keying replaces the route: deriving a key from a derived key keeps
      the directory and swaps the route. With the same route it is
      idempotent. */
  lemma RekeyReplacesRoute(baseKey: string, routeName: string, routeName': string)
    requires '/' !in routeName
    ensures GetKeyForRoute(GetKeyForRoute(baseKey, routeName), routeName') == GetKeyForRoute(baseKey, routeName')
    ensures GetKeyForRoute(GetKeyForRoute(baseKey, routeName), routeName) == GetKeyForRoute(baseKey, routeName)
  {
  }

  /** With the application's base key, every route key sits directly under
      the listing prefix. */
  lemma DefaultKeyUnderListingPrefix(routeName: string)
    ensures GetKeyForRoute(Config.DefaultStateKey, routeName) == Config.StateKeyPrefix + routeName
    ensures Config.StateKeyPrefix <= GetKeyForRoute(Config.DefaultStateKey, routeName)
  {
  }

  /** The key a grid is stored under before the week suffix: the route key
      when a non-empty route name is given, else the base key itself. */
  function StorageKey(key: string, routeName: Option<string>): (k: string)
    ensures routeName.None? || routeName == Some("") ==> k == key
    ensures routeName.Some? && routeName.value != "" ==> k == GetKeyForRoute(key, routeName.value)
    ensures routeName.Some? && routeName.value != "" ==>
      |k| >= |routeName.value| && k[|k| - |routeName.value|..] == routeName.value
  {
    if routeName.Some? && routeName.value != "" then GetKeyForRoute(key, routeName.value) else key
  }

  /** The object key: storage key, a `/`, then the formatted week date. */
  function ObjectKey(key: string, weekDate: string, routeName: Option<string>): (k: string)
    ensures StorageKey(key, routeName) + "/" <= k
    ensures |k| == |StorageKey(key, routeName)| + 1 + |weekDate|
    ensures k[|k| - |weekDate|..] == Dates.FormatDate(weekDate)
    ensures LastIndexOf(k, '/') == |StorageKey(key, routeName)|
  {
    var s := StorageKey(key, routeName);
    var f := Dates.FormatDate(weekDate);
    var k := s + "/" + f;
    assert k[|s|] == '/';
    forall j | |s| < j < |k|
      ensures k[j] != '/'
    {
      assert k[j] == f[j - |s| - 1];
    }
    LastIndexOfAfter(k, '/', |s|);
    assert k[|k| - |weekDate|..] == f;
    k
  }

  /** A position holding `ch` with no `ch` after it is the last index. */
  lemma LastIndexOfAfter(s: string, ch: char, i: int)
    requires 0 <= i < |s| && s[i] == ch
    requires forall j :: i < j < |s| ==> s[j] != ch
    ensures LastIndexOf(s, ch) == i
  {
  }

  /** The remote store: object key to saved grid state. */
  type Store = map<string, Grid.GridState>

  datatype SaveResult = SaveResult(saved: bool, store: Store)

  /** `saveState`: put the grid under its object key. `putSucceeds` is the
      outcome of the upload; a failed upload is reported as `false`. */
  function SaveState(store: Store, key: string, state: Grid.GridState, weekDate: string,
                     routeName: Option<string>, putSucceeds: bool): (r: SaveResult)
    ensures r.saved <==> putSucceeds
    ensures !putSucceeds ==> r.store == store
    ensures putSucceeds ==> r.store.Keys == store.Keys + {ObjectKey(key, weekDate, routeName)}
    ensures putSucceeds ==> r.store[ObjectKey(key, weekDate, routeName)] == state
    ensures putSucceeds ==> forall k :: k in store && k != ObjectKey(key, weekDate, routeName) ==> r.store[k] == store[k]
  {
    if putSucceeds then SaveResult(true, store[ObjectKey(key, weekDate, routeName) := state])
    else SaveResult(false, store)
  }

  /** `loadState`: the grid under the same object key `saveState` writes, or
      nothing when it is missing or any error occurs (`getFails`). */
  function LoadState(store: Store, key: string, weekDate: string, routeName: Option<string>,
                     getFails: bool): (r: Option<Grid.GridState>)
    ensures getFails ==> r.None?
    ensures !getFails ==> (r.Some? <==> ObjectKey(key, weekDate, routeName) in store)
    ensures r.Some? ==> r.value == store[ObjectKey(key, weekDate, routeName)]
  {
    var k := ObjectKey(key, weekDate, routeName);
    if getFails || k !in store then None else Some(store[k])
  }

  /** What was saved is what is loaded back for the same key, week and route. */
  lemma SaveThenLoad(store: Store, key: string, state: Grid.GridState, weekDate: string, routeName: Option<string>)
    ensures LoadState(SaveState(store, key, state, weekDate, routeName, true).store, key, weekDate, routeName, false) == Some(state)
  {
  }

  /** An absent route name and an empty one address the same object. */
  lemma EmptyRouteIsNoRoute(key: string, weekDate: string)
    ensures ObjectKey(key, weekDate, Some("")) == ObjectKey(key, weekDate, None)
    ensures StorageKey(key, None) == key
  {
  }

  /** The last `/`-separated segment of a key, as `split('/')` then taking
      the last part. */
  function LastSegment(key: string): (s: string)
    ensures '/' !in s
    ensures |s| <= |key| && key[|key| - |s|..] == s
    ensures |s| < |key| ==> key[|key| - |s| - 1] == '/'
  {
    var i := LastIndexOf(key, '/');
    var s := key[i + 1..];
    assert |key| - |s| == i + 1;
    assert forall j :: 0 <= j < |s| ==> s[j] != '/' by {
      forall j | 0 <= j < |s|
        ensures s[j] != '/'
      {
        assert s[j] == key[i + 1 + j];
      }
    }
    s
  }

  /** The last segment of a route key is the route, for routes without `/`. */
  lemma LastSegmentOfRouteKey(baseKey: string, routeName: string)
    requires '/' !in routeName
    ensures LastSegment(GetKeyForRoute(baseKey, routeName)) == routeName
  {
  }

}

=== FILE: tile.dfy ===
/** A single grid tile (src/components/Tile.tsx): an index into a list of
    display states that advances by one, cyclically, on every click. */
module Tile {
  import opened Wrappers

  /** One entry of the list of states a tile cycles through; `letter` is the
      source's `label` field (`label` is a Dafny keyword). */
  datatype TileState = TileState(letter: string, color: string)

  /** The four states the application hands to every tile: empty, then the
      letters A, L and B. */
  const AppStates: seq<TileState> := [
    TileState(" ", "#f0f0f0"),
    TileState("A", "#9AD7A4"),
    TileState("L", "#FDAEA9"),
    TileState("B", "#F0CA86")
  ]

  /** What a mounted tile holds: the list it was given and its current index. */
  datatype TileView = TileView(states: seq<TileState>, current: int)

  /** JavaScript's `%` operator, which truncates toward zero: the remainder
      has the sign of the dividend, a magnitude below `n`, and differs from
      the dividend by a multiple of `n`. */
  function JsRem(a: int, n: int): (r: int)
    requires n > 0
    ensures -n < r < n
    ensures a >= 0 ==> r >= 0
    ensures a <= 0 ==> r <= 0
    ensures 0 <= a < n ==> r == a
    ensures a == n ==> r == 0
    ensures (a - r) % n == 0
  {
    if a >= 0 then
      var r := a % n;
      ModUnique(a - r, n, a / n, 0);
      r
    else
      var r := -((-a) % n);
      ModUnique(a - r, n, -((-a) / n), 0);
      r
  }

  /** A multiple of `n` that is smaller than `n` in size is 0. */
  lemma MulSmall(n: int, k: int)
    requires n > 0 && -n < n * k < n
    ensures k == 0
  {
  }

  /** Euclidean remainders are unique: `n * q + r` with `r` in `[0, n)`
      leaves remainder `r`. */
  lemma ModUnique(a: int, n: int, q: int, r: int)
    requires n > 0 && 0 <= r < n && a == n * q + r
    ensures a % n == r
  {
    var q', r' := a / n, a % n;
    assert n * (q - q') == r' - r;
    MulSmall(n, q - q');
  }

  /** The click handler's update `(prev + 1) % states.length`: from an index
      inside the list it steps to the following index, wrapping from the last
      back to the first. */
  function Next(prev: int, n: int): (r: int)
    requires n > 0
    ensures 0 <= prev ==> 0 <= r < n
    ensures 0 <= prev < n - 1 ==> r == prev + 1
    ensures prev == n - 1 ==> r == 0
  {
    JsRem(prev + 1, n)
  }

  /** The state after `k` clicks starting from `s`. */
  function Clicks(s: int, n: int, k: nat): int
    requires n > 0
  {
    if k == 0 then s else Next(Clicks(s, n, k - 1), n)
  }

  /** The states shown during `k` clicks from `s`: the start and every
      state reached, `k + 1` entries in all. */
  function Trace(s: int, n: int, k: nat): (t: seq<int>)
    requires n > 0
    ensures |t| == k + 1
    ensures forall j :: 0 <= j <= k ==> t[j] == Clicks(s, n, j)
  {
    if k == 0 then [s] else Trace(s, n, k - 1) + [Clicks(s, n, k)]
  }

  /** A tile as first mounted: `initialState` defaults to 0 when absent. */
  function Mount(states: seq<TileState>, initialState: Option<int>): (t: TileView)
    ensures t.states == states
    ensures initialState.None? ==> t.current == 0
    ensures initialState.Some? ==> t.current == initialState.value
  {
    TileView(states, if initialState.Some? then initialState.value else 0)
  }

  /** A click. The tile can only be clicked once rendered, and rendering an
      empty state list already fails, so the list is non-empty here. */
  function Click(t: TileView): (r: TileView)
    requires |t.states| > 0
    ensures r.states == t.states
    ensures 0 <= t.current ==> 0 <= r.current < |t.states|
    ensures 0 <= t.current < |t.states| - 1 ==> r.current == t.current + 1
    ensures t.current == |t.states| - 1 ==> r.current == 0
  {
    t.(current := Next(t.current, |t.states|))
  }

  /** The effect that runs when the `initialState` prop changes: the current
      index is overwritten with the new prop value (or its default 0). */
  function InitialStateChanged(t: TileView, initialState: Option<int>): (r: TileView)
    ensures r.states == t.states
    ensures r.current == (if initialState.Some? then initialState.value else 0)
  {
    Mount(t.states, initialState)
  }

  /** A new `initialState` prop overrides any clicks made before it: with
      an index inside the list the tile renders that state, and as many
      clicks as there are states bring it back to that index. */
  lemma ResetOverridesClicks(t: TileView, v: int, k: nat)
    requires 0 <= v < |t.states|
    ensures InitialStateChanged(TileView(t.states, Clicks(t.current, |t.states|, k)), Some(v))
         == InitialStateChanged(t, Some(v))
    ensures Render(InitialStateChanged(t, Some(v))) == Some(t.states[v])
    ensures Clicks(InitialStateChanged(t, Some(v)).current, |t.states|, |t.states|) == v
  {
    ClicksWithinRound(v, |t.states|, |t.states|);
  }

  /** Rendering reads `states[currentState]`; an index outside the list reads
      `undefined` and the colour lookup throws, modelled as `None`. */
  function Render(t: TileView): (r: Option<TileState>)
    ensures r.Some? <==> 0 <= t.current < |t.states|
    ensures r.Some? ==> r.value == t.states[t.current]
    ensures r.Some? ==> r.value in t.states
  {
    if 0 <= t.current < |t.states| then Some(t.states[t.current]) else None
  }

  /** Clicks compose: `a` clicks followed by `b` clicks are `a + b` clicks. */
  lemma {:induction false} ClicksCompose(s: int, n: int, a: nat, b: nat)
    requires n > 0
    ensures Clicks(Clicks(s, n, a), n, b) == Clicks(s, n, a + b)
  {
    if b > 0 {
      ClicksCompose(s, n, a, b - 1);
    }
  }

  /** Within one round of at most `n` clicks from an in-range state, the
      index climbs by one per click and wraps past the end at most once. */
  lemma {:induction false} ClicksWithinRound(s: int, n: int, k: nat)
    requires 0 <= s < n && k <= n
    ensures Clicks(s, n, k) == if s + k < n then s + k else s + k - n
  {
    if k > 0 {
      ClicksWithinRound(s, n, k - 1);
    }
  }

  /** Clicking as many times as there are states returns to the start, from
      any in-range state and after any number of earlier clicks. */
  lemma ClicksCycle(s: int, n: int, k: nat)
    requires 0 <= s < n
    ensures Clicks(s, n, n) == s
    ensures Clicks(s, n, k + n) == Clicks(s, n, k)
  {
    ClicksWithinRound(s, n, n);
    ClicksStayInRange(s, n, k);
    ClicksWithinRound(Clicks(s, n, k), n, n);
    ClicksCompose(s, n, k, n);
  }

  /** Every click from an in-range state leaves the index in range. */
  lemma {:induction false} ClicksStayInRange(s: int, n: int, k: nat)
    requires 0 <= s < n
    ensures 0 <= Clicks(s, n, k) < n
  {
    if k > 0 {
      ClicksStayInRange(s, n, k - 1);
    }
  }

  /** Starting from the empty state 0, clicks `0 .. n-1` show the states
      `0, 1, ..., n-1` in order, so each index is visited exactly once. */
  lemma ClicksVisitEachStateOnce(n: int)
    requires n > 0
    ensures Trace(0, n, n - 1) == seq(n, i => i)
  {
    forall j | 0 <= j < n
      ensures Clicks(0, n, j) == j
    {
      ClicksWithinRound(0, n, j);
    }
  }

  /** With the application's four states, the cycle is 0, 1, 2, 3, 0. */
  lemma AppStatesCycle()
    ensures Trace(0, |AppStates|, |AppStates|) == [0, 1, 2, 3, 0]
  {
    assert |AppStates| == 4;
    ClicksWithinRound(0, 4, 1);
    ClicksWithinRound(0, 4, 2);
    ClicksWithinRound(0, 4, 3);
    ClicksWithinRound(0, 4, 4);
    var t := Trace(0, 4, 4);
    assert t[0] == 0 && t[1] == 1 && t[2] == 2 && t[3] == 3 && t[4] == 0;
  }

  /** A tile mounted with the default index renders for any non-empty list,
      and keeps rendering after any number of clicks. */
  lemma {:induction false} ClickedTileRenders(states: seq<TileState>, k: nat)
    requires |states| > 0
    ensures Render(Mount(states, None)).Some?
    ensures Render(TileView(states, Clicks(0, |states|, k))).Some?
  {
    ClicksStayInRange(0, |states|, k);
  }
}

=== FILE: todoist.dfy ===
/** The to-do service client (src/utils/todoistApi.ts). Each request's
    network outcome is an input; the URL and its encoding are not modelled. */
module Todoist {
  import opened Wrappers
  import Batch

  /** The task fields the client reads, plus the priority the sync handler
      sets. Absent optional fields are `None`. */
  datatype Task = Task(
    content: string,
    description: Option<string>,
    projectId: Option<string>,
    dueDate: Option<string>,
    priority: Option<int>,
    assignee: Option<string>
  )

  /** How the request for one task ended: an ok response, a non-ok response
      (which the client turns into a thrown error), or a thrown fetch. */
  datatype Response = ResponseOk | ResponseNotOk | FetchThrows

  /** JavaScript truthiness of an optional string: present and non-empty. */
  predicate Present(o: Option<string>) {
    o.Some? && o.value != ""
  }

  /** The guard in front of the request: a due date and a project id. */
  predicate Sendable(t: Task) {
    Present(t.dueDate) && Present(t.projectId)
  }

  /** `createTask`: refused without a request when the due date or the
      project id is missing; otherwise `true` exactly for an ok response.
      Every error is caught, so the call never throws. */
  function CreateTask(t: Task, response: Response): (c: Batch.Call)
    ensures c.Rejected? <==> !Present(t.dueDate) || !Present(t.projectId)
    ensures c == Batch.Sent(true) <==> Sendable(t) && response == ResponseOk
  {
    if !Present(t.dueDate) || !Present(t.projectId) then Batch.Rejected
    else Batch.Sent(response == ResponseOk)
  }

  /** Tasks that pass the guard and so cause a request. */
  function CountSendable(tasks: seq<Task>): (n: nat)
    ensures n <= |tasks|
    ensures n == 0 <==> forall i :: 0 <= i < |tasks| ==> !Sendable(tasks[i])
  {
    if |tasks| == 0 then 0
    else
      assert forall i :: 1 <= i < |tasks| ==> tasks[1..][i - 1] == tasks[i];
      (if Sendable(tasks[0]) then 1 else 0) + CountSendable(tasks[1..])
  }

  /** Tasks that pass the guard and whose request is answered ok: the
      successes a batch should report. Counted from the end, as positions
      index `respond`. */
  function CountOk(tasks: seq<Task>, respond: nat -> Response): (n: nat)
    ensures n <= |tasks|
  {
    if |tasks| == 0 then 0
    else
      CountOk(tasks[..|tasks| - 1], respond)
        + (if Sendable(tasks[|tasks| - 1]) && respond(|tasks| - 1) == ResponseOk then 1 else 0)
  }

  /** `createTasks`: one `createTask` per task, in order, tallied. `respond(i)`
      is how the request for the `i`-th task would end, should one be made;
      `sent` counts the calls that got past the guard and so made a
      request. */
  method CreateTasks(tasks: seq<Task>, respond: nat -> Response) returns (r: Batch.BatchResult, sent: nat)
    ensures r.totalSuccess == CountOk(tasks, respond)
    ensures r.totalFailed == |tasks| - CountOk(tasks, respond)
    ensures r.totalSuccess + r.totalFailed == |tasks|
    ensures r.success <==> r.totalFailed == 0
    ensures r.success <==> forall i: nat :: i < |tasks| ==> Sendable(tasks[i]) && respond(i) == ResponseOk
    ensures sent == CountSendable(tasks)
    ensures sent == 0 ==> r.totalSuccess == 0
    ensures r.totalSuccess <= sent
  {
    var outcomes := seq(|tasks|, i requires 0 <= i < |tasks| => Batch.OutcomeOf(CreateTask(tasks[i], respond(i))));
    r := Batch.RunBatch(outcomes);
    forall i: nat | i < |tasks|
      ensures outcomes[i] == Batch.Succeeded <==> Sendable(tasks[i]) && respond(i) == ResponseOk
    {
      var c := CreateTask(tasks[i], respond(i));
      assert outcomes[i] == Batch.OutcomeOf(c);
    }
    sent := 0;
    var i := 0;
    while i < |tasks|
      invariant 0 <= i <= |tasks|
      invariant sent == CountSendable(tasks[..i])
    {
      assert tasks[..i + 1] == tasks[..i] + [tasks[i]];
      SendableSplit(tasks[..i], tasks[i]);
      if CreateTask(tasks[i], respond(i)).Sent? {
        sent := sent + 1;
      }
      i := i + 1;
    }
    assert tasks[..i] == tasks;
    SucceededOnlyWhenSent(tasks, respond);
    SucceededAreOk(tasks, respond);
  }

  /** The batch's successes are exactly the sendable tasks answered ok. */
  lemma {:induction false} SucceededAreOk(tasks: seq<Task>, respond: nat -> Response)
    ensures Batch.CountSucceeded(seq(|tasks|, i requires 0 <= i < |tasks| => Batch.OutcomeOf(CreateTask(tasks[i], respond(i)))))
      == CountOk(tasks, respond)
  {
    var outcomes := seq(|tasks|, i requires 0 <= i < |tasks| => Batch.OutcomeOf(CreateTask(tasks[i], respond(i))));
    if |tasks| > 0 {
      var n := |tasks| - 1;
      var front := tasks[..n];
      SucceededAreOk(front, respond);
      var frontOutcomes := seq(|front|, i requires 0 <= i < |front| => Batch.OutcomeOf(CreateTask(front[i], respond(i))));
      assert outcomes[..n] == frontOutcomes;
      var c := CreateTask(tasks[n], respond(n));
      assert outcomes[n] == Batch.OutcomeOf(c);
    }
  }

  /** Only tasks that were sent can succeed. */
  lemma {:induction false} SucceededOnlyWhenSent(tasks: seq<Task>, respond: nat -> Response)
    ensures Batch.CountSucceeded(seq(|tasks|, i requires 0 <= i < |tasks| => Batch.OutcomeOf(CreateTask(tasks[i], respond(i)))))
      <= CountSendable(tasks)
  {
    var outcomes := seq(|tasks|, i requires 0 <= i < |tasks| => Batch.OutcomeOf(CreateTask(tasks[i], respond(i))));
    if |tasks| > 0 {
      var n := |tasks| - 1;
      var front := tasks[..n];
      SucceededOnlyWhenSent(front, respond);
      var frontOutcomes := seq(|front|, i requires 0 <= i < |front| => Batch.OutcomeOf(CreateTask(front[i], respond(i))));
      assert outcomes[..n] == frontOutcomes;
      assert Batch.CountSucceeded(outcomes) == Batch.CountSucceeded(frontOutcomes) + (if outcomes[n] == Batch.Succeeded then 1 else 0);
      assert tasks == front + [tasks[n]];
      SendableSplit(front, tasks[n]);
      var c := CreateTask(tasks[n], respond(n));
      assert outcomes[n] == Batch.OutcomeOf(c);
    }
  }

  /** Counting sendable tasks one task at a time from the end. */
  lemma {:induction false} SendableSplit(front: seq<Task>, last: Task)
    ensures CountSendable(front + [last]) == CountSendable(front) + (if Sendable(last) then 1 else 0)
  {
    if |front| > 0 {
      assert (front + [last])[1..] == front[1..] + [last];
      SendableSplit(front[1..], last);
    } else {
      assert (front + [last])[1..] == [];
    }
  }
}

=== FILE: wrappers.dfy ===
/** Optional values and fallible results, used wherever the source returns
    `undefined`/`null` or throws. */
module Wrappers {

  datatype Option<+T> = None | Some(value: T)

  datatype Result<+T, +E> = Ok(value: T) | Err(error: E)
}
